=== FILE: README.md ===
# gallery-shaper: a Dafny model of the gallery's service client, stores and page logic

gallery-shaper is a browser photo gallery over the Picsum image service. It
lists photos a page at a time and lets the user set a per-photo width,
height, grayscale flag and blur. Those settings are kept in the browser's
`localStorage` and turned into a Picsum transform URL. This project models
the parts of it whose behaviour the code fixes exactly:

- `Picsum` (src/services/picsum.ts): the listing request URL; `fetchImages`
  with the response as an input; `getImageUrl`; and the edited-image store
  (`saveEditedImage` / `getEditedImage`) over one map that stands for
  `localStorage`.
- `GalleryContext` (src/context/GalleryContext.tsx): the shared current
  page. It is seeded from storage with `parseInt` and written back as
  decimal text on mount and on every change. `useGallery` fails outside a
  provider.
- `Pagination` (src/components/Pagination.tsx): the previous/next targets
  and when each button is disabled.
- `GalleryPage` (src/pages/Index.tsx, with the thumbnail of
  src/components/ImageCard.tsx): the 12-per-page request, `hasMore`, when
  the pagination control is shown, and page changes going to the shared
  setter.
- `EditImage` (src/pages/EditImage.tsx): the initial settings with their
  `||` fallbacks, the controls and Reset, the save on every change, the
  preview URL and the detail lookup.
- `Decimal` prints integers the way JavaScript's template literals do and
  parses them the way `parseInt(s, 10)` does. `Text` holds
  `Array.prototype.join` and a few lemmas about splitting strings.
  `Wrappers` holds `Option` and `Result`.

Storage is a `map<string, Stored>`. A value is either `Text(s)` or
`Json(e)`. `Json(e)` stands for `JSON.stringify(e)` of an `EditedImage`,
and parsing it gives back exactly `e`. Because both stores share this one
map, the model proves that the page key and the edited-image keys never
interfere. The network becomes a `server: string -> Response` parameter, so
each request the model makes is a URL you can reason about.

Three behaviours of the code are worth stating plainly, because the model
keeps them rather than tidying them up:

- An unparsable stored page yields `parseInt`'s `NaN`
  (src/context/GalleryContext.tsx:15). `InitialPage` returns `None` for it,
  and only an absent or empty entry gives page 1.
- `setCurrentPage` takes any value, including 0 and negative pages
  (src/context/GalleryContext.tsx:12,24). `SetCurrentPage` does the same.
  Page 1 or above is kept only by the pagination control
  (`RunStaysPositive`, `NavigateKeepsPageValid`).
- The editor stores whatever width and height the inputs give, 0 included
  (src/pages/EditImage.tsx:134,146). On reopening, a stored 0 comes back as
  the default (src/pages/EditImage.tsx:23-24, `ReopenRestoresIff`).

## Model

| member | source | states |
|---|---|---|
| Decimal.ToDecimal | src/services/picsum.ts:30 | An integer prints as a non-empty string of digits with a leading `-` exactly when it is negative, so it contains no `?`, `&` or `/`. It has no leading zero: only 0 prints starting with `0`, and a negative number's first digit is not `0`. |
| Decimal.ParseIntToDecimal | src/context/GalleryContext.tsx:15-20 | `parseInt(n.toString(), 10)` gives back `n` for every integer. |
| Decimal.ParseDecimalToDecimal | src/services/picsum.ts:34 | A printed integer parses back strictly to itself. |
| Decimal.TrimStart | src/context/GalleryContext.tsx:15 | Drops exactly the leading white space: everything removed is white space, and what remains does not start with white space. |
| Decimal.ParseInt | src/context/GalleryContext.tsx:15 | `parseInt(s, 10)` gives a number only when the text contains a digit; otherwise it gives NaN (`None`). Its value is fixed by `ParseIntReads`. |
| Decimal.ParseIntReads | src/context/GalleryContext.tsx:15 | After white space, an optional `+` or `-`, then a non-empty run of digits followed by nothing or a non-digit, `parseInt` gives the run's value, negated after `-`. Leading zeros are read, so `"+5"` is 5, `"007"` is 7 and `"-0"` is 0. |
| Decimal.ParseSignedDigits | src/context/GalleryContext.tsx:15 | After the white space, the optional sign and the digit run up to the first non-digit give the number read. |
| Decimal.ParseIntSkipsSpace | src/context/GalleryContext.tsx:15 | Leading white space does not change what `parseInt` reads. |
| Decimal.ParseIntIgnoresTail | src/context/GalleryContext.tsx:15 | After any white space, a printed integer followed by nothing or by a non-digit reads as that integer, so `"5abc"` reads as 5. |
| Decimal.ParseIntNoDigits | src/context/GalleryContext.tsx:15 | With no digit right after the white space and an optional sign, `parseInt` gives NaN. |
| Decimal.ToDecimalInjective | src/services/picsum.ts:22 | Distinct integers print as distinct strings. |
| Picsum.ListUrl | src/services/picsum.ts:22 | The listing request always goes to the `https://picsum.photos/v2/list?page=` endpoint. |
| Picsum.ListUrlFields | src/services/picsum.ts:22 | The listing URL is that prefix, the page in decimal, `&limit=`, then the limit in decimal up to the end, each at its stated position. |
| Picsum.ListUrlInjective | src/services/picsum.ts:22 | The listing URL determines both `page` and `limit`. Equal URLs mean equal parameters. |
| Picsum.FetchImages | src/services/picsum.ts:21-27 | Makes one request at the listing URL for `(page, limit)`. It fails with "Failed to fetch images" exactly when the response is not ok; otherwise it returns the decoded body. |
| Picsum.ImageUrl | src/services/picsum.ts:29-41 | The transform URL always starts with `https://picsum.photos/id/{id}/{w}/{h}`. |
| Picsum.Params | src/services/picsum.ts:32-34 | There is one parameter per active effect. `grayscale` comes first when on, and `blur=n` comes last when the blur is positive. |
| Picsum.Query | src/services/picsum.ts:36-38 | The query is empty exactly when grayscale is off and the blur is not positive. Otherwise it starts with `?`. |
| Picsum.QueryCases | src/services/picsum.ts:32-38 | The query built by push-and-join is one of `""`, `?grayscale`, `?blur=n` or `?grayscale&blur=n`. Grayscale always comes first, and blur appears only when positive. |
| Picsum.ImageUrlCases | src/services/picsum.ts:29-41 | The URL is the base path followed by exactly that case-by-case query. |
| Picsum.QueryMarkIff | src/services/picsum.ts:34-38 | For an id without `?`, the URL contains `?` if and only if grayscale is on or blur is positive. |
| Picsum.NonPositiveBlurIgnored | src/services/picsum.ts:34 | A zero or negative blur gives the same URL as blur 0, so it never shows in the URL. |
| Picsum.DecodeExpectedQuery | src/services/picsum.ts:32-38 | Reading the query back recovers the grayscale flag and the blur, with a non-positive blur read as 0. |
| Picsum.EditedKeyInjective | src/services/picsum.ts:51-56 | The key `edited-image-{id}` determines the id. |
| Picsum.SaveEditedImage | src/services/picsum.ts:51-53 | Saving puts the record's JSON under its key and adds no other key. Every other key keeps its value. |
| Picsum.GetEditedImage | src/services/picsum.ts:55-61 | A missing or empty entry reads as null, and a record's JSON reads back as that record. Any other text fails to parse. |
| Picsum.SaveThenGet | src/services/picsum.ts:51-61 | Reading an id right after saving it returns the saved record. |
| Picsum.LastWriteWins | src/services/picsum.ts:51-53 | Two saves for the same id leave the store as the second save alone would. |
| Picsum.SaveLeavesOthers | src/services/picsum.ts:51-61 | Saving under id A leaves what is read for any id B != A unchanged. |
| Picsum.LastSaved | src/services/picsum.ts:51-53 | The last record saved for an id, if any, comes from the run and carries that id. There is none exactly when no record in the run has that id. |
| Picsum.SaveAllThenGet | src/services/picsum.ts:51-61 | After any run of saves, reading an id gives the last record saved for it. If none was saved, it gives what was there before. |
| Picsum.NeverSavedIsNull | src/services/picsum.ts:55-61 | Starting from empty storage, an id that no save used reads as null. |
| GalleryContext.PageKeyNotEdited | src/context/GalleryContext.tsx:14-20 | `gallery-current-page` is never the key of an edited image. |
| GalleryContext.InitialPage | src/context/GalleryContext.tsx:12-16 | An absent or empty entry starts on page 1. Any other text gives its `parseInt` value, which may be NaN. |
| GalleryContext.Mount | src/context/GalleryContext.tsx:12-21 | The provider starts on the initial page and writes it back as decimal text. Every other key is left as it was. |
| GalleryContext.SetCurrentPage | src/context/GalleryContext.tsx:18-24 | The new page is exactly the value given, with no clamping. Its decimal text is stored under `gallery-current-page`, and every other key is unchanged. |
| GalleryContext.PersistedPageReads | src/context/GalleryContext.tsx:12-21 | The initialiser reads a persisted page back as the current page, for every integer page. |
| GalleryContext.RestartRestoresPage | src/context/GalleryContext.tsx:12-21 | Remounting from what the provider persisted gives the same page and the same storage. |
| GalleryContext.SetThenRestart | src/context/GalleryContext.tsx:15-20 | After setting page n, a restart starts on page n. |
| GalleryContext.FirstRunStartsOnPageOne | src/context/GalleryContext.tsx:14-15 | With nothing stored, the first run starts on page 1. |
| GalleryContext.SetCurrentPageLeavesEdits | src/context/GalleryContext.tsx:20 | A page change leaves every saved edited image as it was. |
| GalleryContext.SaveLeavesPage | src/services/picsum.ts:52 | Saving an edited image leaves the stored page as it was. |
| GalleryContext.UseGallery | src/context/GalleryContext.tsx:30-35 | Outside a provider it fails with the provider error. Inside one it returns that provider's value. |
| Pagination.PreviousTarget | src/components/Pagination.tsx:18 | The previous target is never below 1. It is `page - 1` or 1. |
| Pagination.NextTarget | src/components/Pagination.tsx:31 | The next target is above the current page. |
| Pagination.Click | src/components/Pagination.tsx:18-32 | Previous is disabled exactly on page 1, and next exactly when there is no more. An enabled previous goes to `max(1, p-1)`, and next goes to `p+1`. |
| Pagination.ClickStaysPositive | src/components/Pagination.tsx:18-31 | From page 1 or above, every enabled button leads to page 1 or above. |
| Pagination.PreviousBelowOne | src/components/Pagination.tsx:18-19 | Below page 1, previous is enabled and goes to 1. |
| Pagination.PreviousThenNext | src/components/Pagination.tsx:18-31 | Above page 1, previous then next comes back to the same page. |
| Pagination.NextThenPrevious | src/components/Pagination.tsx:18-31 | From page 1 on, next then previous comes back to the same page. |
| Pagination.RunStaysPositive | src/components/Pagination.tsx:18-32 | No sequence of clicks starting from page 1 or above ever leaves pages of at least 1. |
| GalleryPage.ListingRequestIdentifiesPage | src/pages/Index.tsx:12-16 | The listing is requested with `(currentPage, 12)`, so the request determines the page. |
| GalleryPage.Settle | src/pages/Index.tsx:14-16 | The settled query fails exactly when the response to `(currentPage, ItemsPerPage)` is not ok, with `ItemsPerPage` = 12. Otherwise it holds that response's images. |
| GalleryPage.Render | src/pages/Index.tsx:19-55 | Loading shows the spinner and an error shows the message. The grid shows the images, and the control appears only under a non-empty list. The control shows the current page, and `hasMore` holds exactly when `ItemsPerPage` (12) images came back. |
| GalleryPage.Navigate | src/pages/Index.tsx:49-54 | An enabled click goes straight to `setCurrentPage` with the control's target. A disabled or hidden control changes nothing. |
| GalleryPage.NavigateKeepsPageValid | src/pages/Index.tsx:49-54 | Navigating from a persisted page of 1 or above keeps the page at 1 or above, and keeps it persisted. |
| GalleryPage.NextOnlyAfterFullPage | src/pages/Index.tsx:53 | Next advances the page exactly when the list holds 12 images. |
| GalleryPage.ThumbnailIsDefaultImageUrl | src/components/ImageCard.tsx:18 | The card's inline thumbnail URL is `getImageUrl` with its defaults (400, 300, false, 0). |
| EditImage.RouteId | src/pages/EditImage.tsx:16-21 | A route id counts only when present and non-empty. |
| EditImage.InitialSettings | src/pages/EditImage.tsx:21-26 | With no record the settings are (600, 400, false, 0). Otherwise width and height are the saved ones unless 0, which falls back to the default. Grayscale and blur are the saved values. |
| EditImage.Open | src/pages/EditImage.tsx:20-50 | Opening fails only on a corrupt entry for the route id. Otherwise the settings are the `||`-fallback settings of the saved record (the defaults on a first visit), and the store then holds them. Only the route id's key is added or changed. Without an id, the settings are the defaults and nothing is written. |
| EditImage.Update | src/pages/EditImage.tsx:128-196 | Each control sets only its own setting, to the value given, with no clamping. Reset gives exactly (600, 400, false, 0). |
| EditImage.Apply | src/pages/EditImage.tsx:40-50 | After any change the store holds `{id, width, height, grayscale, blur}` of the new settings. No other key changes. |
| EditImage.PreviewUrl | src/pages/EditImage.tsx:52 | With a route id, the preview is `getImageUrl` of the current settings. Without one, it is empty. |
| EditImage.PreviewMatchesSaved | src/pages/EditImage.tsx:40-52 | The preview is the transform URL of the record saved for the image. |
| EditImage.ResetPreview | src/pages/EditImage.tsx:191-196 | After Reset, the preview is the bare 600x400 transform URL with no query. |
| EditImage.ReopenRestoresIff | src/pages/EditImage.tsx:21-26 | Reopening on what was saved restores the editor exactly, storage included, if and only if neither dimension is 0. |
| EditImage.FirstVisitSavesDefaults | src/pages/EditImage.tsx:21-50 | A first visit creates the record `{id, 600, 400, false, 0}`. |
| EditImage.FindIndex | src/pages/EditImage.tsx:34 | Finds the first image with the id; no earlier image has it. |
| EditImage.LoadDetails | src/pages/EditImage.tsx:29-37 | Without a route id the query does not run. Otherwise it requests `(1, 100)` and fails exactly when the response is not ok. It returns the first listed image with the id, or null when none has it. |

## Left out

- Decimal.ToDecimal: JavaScript prints magnitudes of 1e21 and above in exponent form. The model always prints plain decimal.
- Decimal.ParseIntToDecimal: JavaScript numbers are doubles, so integers above 2^53 lose precision. The model's integers are unbounded.
- Width, height, blur and page are `int`. `Number(e.target.value)` can give `NaN` or a fraction, and the model does not carry those values.
- GalleryContext.Mount: when the stored page parses to `NaN`, the result is `None`. The provider then runs on `NaN`, which the model does not follow.
- Picsum.GetEditedImage: JSON text not written by `saveEditedImage` is a failure here. In the code `JSON.parse` either throws or yields a value of another shape.
- Picsum.FetchImages: the network round trip is the `server` parameter, which always returns a response. A `fetch` that rejects (a network failure, which surfaces as the browser's `TypeError` rather than "Failed to fetch images") is not modelled. TanStack Query's automatic retries before the query reports an error are not modelled either. Malformed JSON bodies and the service's promise of at most `limit` items are not modelled.
- `prefetchImageDetail` (src/services/picsum.ts:43-49) is left out. It writes into a TanStack Query cache, which is not part of this model.
- The download flow (src/pages/EditImage.tsx:54-78) is left out. It is a blob fetch plus a synthetic anchor named `edited-image-{id}.jpg`, which is browser I/O.
- The toast that reports a failed download is left out.
- React scheduling is left out. An effect is modelled as running right after its change. React skips the effect when nothing changed; the store already holds those settings, so saving again leaves it the same.
- Query caching (`staleTime`), refetching and stale in-flight fetches are left out.
- Routing (src/App.tsx) and src/pages/NotFound.tsx are left out.
- The HTML `min`/`max` input attributes are left out. The setters do not enforce them, so they are not invariants.
- Rendering is left out, apart from the choices `GalleryPage.Render` makes.

=== FILE: decimal.dfy ===
/** Integers as JavaScript prints and parses them.

    Template literals and `Number.prototype.toString` print an integer in
    decimal with a leading `-` when negative; `parseInt(s, 10)` skips leading
    white space, reads an optional sign and then the longest run of decimal
    digits, and yields `NaN` when that run is empty. `NaN` is `None` here. */
module Decimal {
  import opened Wrappers

  predicate IsDigit(c: char) {
    '0' <= c <= '9'
  }

  predicate AllDigits(s: string) {
    forall i :: 0 <= i < |s| ==> IsDigit(s[i])
  }

  function DigitValue(c: char): (d: nat)
    requires IsDigit(c)
    ensures d < 10
  {
    c as int - '0' as int
  }

  function DigitChar(d: nat): (c: char)
    requires d < 10
    ensures IsDigit(c) && DigitValue(c) == d
  {
    (d + '0' as int) as char
  }

  /** Decimal digits of `n`, most significant first, without leading zeros. */
  function NatDigits(n: nat): (s: string)
    ensures |s| > 0 && AllDigits(s)
    ensures s[0] == '0' ==> n == 0
  {
    if n < 10 then [DigitChar(n)] else NatDigits(n / 10) + [DigitChar(n % 10)]
  }

  /** The value of a run of decimal digits; the empty run is 0. */
  function DigitsValue(s: string): nat
    requires AllDigits(s)
  {
    if |s| == 0 then 0 else DigitsValue(s[..|s| - 1]) * 10 + DigitValue(s[|s| - 1])
  }

  /** `${n}` for an integer `n`. */
  function ToDecimal(n: int): (s: string)
    ensures |s| > 0
    ensures s[0] == '-' <==> n < 0
    ensures forall i :: 0 < i < |s| ==> IsDigit(s[i])
    ensures IsDigit(s[0]) || s[0] == '-'
    ensures s[0] == '0' ==> s == "0"
    ensures n < 0 ==> |s| > 1 && s[1] != '0'
  {
    if n < 0 then "-" + NatDigits(-n) else NatDigits(n)
  }

  /** The white space `parseInt` skips: ECMAScript's WhiteSpace and
      LineTerminator code points. */
  predicate IsJsSpace(c: char) {
    || c == '\t' || c == '\n' || c == '\U{B}' || c == '\U{C}' || c == '\r' || c == ' '
    || c == '\U{A0}' || c == '\U{1680}' || ('\U{2000}' <= c <= '\U{200A}')
    || c == '\U{2028}' || c == '\U{2029}' || c == '\U{202F}' || c == '\U{205F}'
    || c == '\U{3000}' || c == '\U{FEFF}'
  }

  function TrimStart(s: string): (t: string)
    ensures |t| <= |s| && t == s[|s| - |t|..]
    ensures |t| > 0 ==> !IsJsSpace(t[0])
    ensures forall i :: 0 <= i < |s| - |t| ==> IsJsSpace(s[i])
  {
    if |s| > 0 && IsJsSpace(s[0]) then
      var t := TrimStart(s[1..]);
      assert forall i :: 1 <= i < |s| - |t| ==> s[i] == s[1..][i - 1];
      t
    else s
  }

  /** The longest prefix of `s` made of decimal digits. */
  function DigitPrefix(s: string): (d: string)
    ensures AllDigits(d) && d <= s
    ensures |d| < |s| ==> !IsDigit(s[|d|])
  {
    if |s| == 0 || !IsDigit(s[0]) then "" else [s[0]] + DigitPrefix(s[1..])
  }

  /** `parseInt` after the white space: an optional sign, then the longest
      run of digits; `None` when that run is empty. */
  function ParseSigned(t: string): (r: Option<int>)
    ensures r.Some? ==> exists i :: 0 <= i < |t| && IsDigit(t[i])
  {
    var negative := |t| > 0 && t[0] == '-';
    var rest := if |t| > 0 && (t[0] == '-' || t[0] == '+') then t[1..] else t;
    var d := DigitPrefix(rest);
    if |d| == 0 then None
    else
      assert IsDigit(t[|t| - |rest|]) by {
        assert d[0] == rest[0];
      }
      if negative then Some(-(DigitsValue(d) as int))
      else Some(DigitsValue(d))
  }

  /** `parseInt(s, 10)`; `None` is `NaN`. A number needs at least one digit
      in the text. */
  function ParseInt(s: string): (r: Option<int>)
    ensures r.Some? ==> exists i :: 0 <= i < |s| && IsDigit(s[i])
  {
    var t := TrimStart(s);
    var r := ParseSigned(t);
    assert r.Some? ==> exists i :: 0 <= i < |s| && IsDigit(s[i]) by {
      if r.Some? {
        var i :| 0 <= i < |t| && IsDigit(t[i]);
        assert t[i] == s[|s| - |t| + i];
      }
    }
    r
  }

  /** Strict decimal: an optional `-` followed by one or more digits and
      nothing else. */
  function ParseDecimal(s: string): Option<int> {
    if |s| > 0 && s[0] == '-' then
      if |s| > 1 && AllDigits(s[1..]) then Some(-(DigitsValue(s[1..]) as int)) else None
    else if |s| > 0 && AllDigits(s) then Some(DigitsValue(s))
    else None
  }

  lemma {:induction false} NatDigitsValue(n: nat)
    ensures DigitsValue(NatDigits(n)) == n
  {
    var s := NatDigits(n);
    if n >= 10 {
      NatDigitsValue(n / 10);
      assert s[..|s| - 1] == NatDigits(n / 10);
    }
  }

  /** The digit run ends where the digits end. */
  lemma {:induction false} DigitPrefixStops(d: string, rest: string)
    requires AllDigits(d)
    requires |rest| == 0 || !IsDigit(rest[0])
    ensures DigitPrefix(d + rest) == d
    decreases |d|
  {
    if |d| > 0 {
      DigitPrefixStops(d[1..], rest);
      assert (d + rest)[1..] == d[1..] + rest;
      assert d == [d[0]] + d[1..];
    } else {
      assert d + rest == rest;
    }
  }

  /** Leading white space is dropped whole. */
  lemma {:induction false} TrimStartSpaces(w: string, s: string)
    requires forall i :: 0 <= i < |w| ==> IsJsSpace(w[i])
    ensures TrimStart(w + s) == TrimStart(s)
    decreases |w|
  {
    if |w| > 0 {
      assert (w + s)[1..] == w[1..] + s;
      TrimStartSpaces(w[1..], s);
    } else {
      assert w + s == s;
    }
  }

  /** `parseInt` skips leading white space. */
  lemma ParseIntSkipsSpace(w: string, s: string)
    requires forall i :: 0 <= i < |w| ==> IsJsSpace(w[i])
    ensures ParseInt(w + s) == ParseInt(s)
  {
    TrimStartSpaces(w, s);
  }

  /** Text that does not start with white space is left as it is. */
  lemma TrimStartNoSpace(t: string)
    requires |t| == 0 || !IsJsSpace(t[0])
    ensures TrimStart(t) == t
  {
  }

  lemma ParseSignedDecimal(n: int, rest: string)
    requires |rest| == 0 || !IsDigit(rest[0])
    ensures ParseSigned(ToDecimal(n) + rest) == Some(n)
  {
    var m: nat := if n < 0 then -n else n;
    NatDigitsValue(m);
    if n < 0 {
      assert ToDecimal(n) == ['-'] + NatDigits(m);
      ParseSignedSigned('-', NatDigits(m), rest);
    } else {
      assert [] + NatDigits(m) + rest == ToDecimal(n) + rest;
      ParseSignedUnsigned(NatDigits(m), rest);
    }
  }

  /** `parseInt` reads a printed integer after any white space and ignores
      whatever follows it from the first non-digit on: `" 5abc"` reads
      as 5. */
  lemma ParseIntIgnoresTail(w: string, n: int, rest: string)
    requires forall i :: 0 <= i < |w| ==> IsJsSpace(w[i])
    requires |rest| == 0 || !IsDigit(rest[0])
    ensures ParseInt(w + ToDecimal(n) + rest) == Some(n)
  {
    var t := ToDecimal(n) + rest;
    assert w + ToDecimal(n) + rest == w + t;
    assert t[0] == ToDecimal(n)[0];
    ParseIntAfterSpace(w, t);
    ParseSignedDecimal(n, rest);
  }

  lemma ParseSignedNoDigits(sign: string, rest: string)
    requires sign == "" || sign == "+" || sign == "-"
    requires |rest| == 0 || !IsDigit(rest[0])
    requires sign == "" && |rest| > 0 ==> rest[0] != '+' && rest[0] != '-'
    ensures ParseSigned(sign + rest).None?
  {
    var t := sign + rest;
    if sign != "" {
      assert t[1..] == rest;
    } else {
      assert t == rest;
    }
  }

  /** After white space, `parseInt` reads text that starts with no white
      space as the signed part alone. */
  lemma ParseIntAfterSpace(w: string, t: string)
    requires forall i :: 0 <= i < |w| ==> IsJsSpace(w[i])
    requires |t| == 0 || !IsJsSpace(t[0])
    ensures ParseInt(w + t) == ParseSigned(t)
  {
    TrimStartSpaces(w, t);
    TrimStartNoSpace(t);
  }

  /** Without a digit right after the white space and the optional sign,
      `parseInt` yields `NaN`. */
  lemma ParseIntNoDigits(w: string, sign: string, rest: string)
    requires forall i :: 0 <= i < |w| ==> IsJsSpace(w[i])
    requires sign == "" || sign == "+" || sign == "-"
    requires |rest| == 0 || !IsDigit(rest[0])
    requires sign == "" && |rest| > 0 ==> !IsJsSpace(rest[0]) && rest[0] != '+' && rest[0] != '-'
    ensures ParseInt(w + sign + rest).None?
  {
    var t := sign + rest;
    assert w + sign + rest == w + t;
    if sign == "" {
      assert t == rest;
    } else {
      assert t[0] == sign[0];
    }
    ParseIntAfterSpace(w, t);
    ParseSignedNoDigits(sign, rest);
  }

  /** Without a sign, `parseInt` reads the run of digits up to the first
      non-digit, leading zeros included. */
  lemma {:induction false} ParseSignedUnsigned(d: string, rest: string)
    requires |d| > 0 && AllDigits(d)
    requires |rest| == 0 || !IsDigit(rest[0])
    ensures ParseSigned([] + d + rest) == Some(DigitsValue(d))
  {
    DigitPrefixStops(d, rest);
    assert [] + d + rest == d + rest;
    assert (d + rest)[0] == d[0];
  }

  /** A leading `+` or `-` is read as the sign of the digit run after it. */
  lemma {:induction false} ParseSignedSigned(c: char, d: string, rest: string)
    requires c == '+' || c == '-'
    requires |d| > 0 && AllDigits(d)
    requires |rest| == 0 || !IsDigit(rest[0])
    ensures ParseSigned([c] + d + rest)
         == Some(if c == '-' then -(DigitsValue(d) as int) else DigitsValue(d))
  {
    DigitPrefixStops(d, rest);
    assert ([c] + d + rest)[1..] == d + rest;
  }

  /** After the optional sign, `parseInt` reads the run of digits up to the
      first non-digit, leading zeros included. */
  lemma ParseSignedDigits(sign: string, d: string, rest: string)
    requires |sign| <= 1 && (|sign| == 1 ==> sign[0] == '+' || sign[0] == '-')
    requires |d| > 0 && AllDigits(d)
    requires |rest| == 0 || !IsDigit(rest[0])
    ensures ParseSigned(sign + d + rest)
         == Some(if |sign| == 1 && sign[0] == '-' then -(DigitsValue(d) as int) else DigitsValue(d))
  {
    if |sign| == 0 {
      assert sign == [];
      ParseSignedUnsigned(d, rest);
    } else {
      assert sign == [sign[0]];
      ParseSignedSigned(sign[0], d, rest);
    }
  }

  /** White space then a sign or a digit: `parseInt` reads from the sign. */
  lemma ParseIntAfterSign(w: string, sign: string, d: string, rest: string)
    requires forall i :: 0 <= i < |w| ==> IsJsSpace(w[i])
    requires |sign| <= 1 && (|sign| == 1 ==> sign[0] == '+' || sign[0] == '-')
    requires |d| > 0 && IsDigit(d[0])
    ensures ParseInt(w + sign + d + rest) == ParseSigned(sign + d + rest)
  {
    var u := sign + d + rest;
    assert w + sign + d + rest == w + u;
    assert !IsJsSpace(u[0]) by {
      if |sign| == 0 { assert u[0] == d[0]; } else { assert u[0] == sign[0]; }
    }
    ParseIntAfterSpace(w, u);
  }

  /** How `parseInt` reads a number: white space, an optional `+` or `-`,
      a run of digits (leading zeros allowed), then nothing or a non-digit.
      So `"+5"` reads as 5, `"007"` as 7, `"-0"` as 0 and `" 12px"` as 12. */
  lemma ParseIntReads(w: string, sign: string, d: string, rest: string)
    requires forall i :: 0 <= i < |w| ==> IsJsSpace(w[i])
    requires |sign| <= 1 && (|sign| == 1 ==> sign[0] == '+' || sign[0] == '-')
    requires |d| > 0 && AllDigits(d)
    requires |rest| == 0 || !IsDigit(rest[0])
    ensures ParseInt(w + sign + d + rest)
         == Some(if |sign| == 1 && sign[0] == '-' then -(DigitsValue(d) as int) else DigitsValue(d))
  {
    ParseIntAfterSign(w, sign, d, rest);
    ParseSignedDigits(sign, d, rest);
  }

  /** Printing then `parseInt` gives back the integer: the page number
      written to storage survives a restart. */
  lemma ParseIntToDecimal(n: int)
    ensures ParseInt(ToDecimal(n)) == Some(n)
  {
    var s := ToDecimal(n);
    assert s + "" == s;
    ParseSignedDecimal(n, "");
    TrimStartNoSpace(s);
  }

  /** Printing then strict parsing gives back the integer. */
  lemma ParseDecimalToDecimal(n: int)
    ensures ParseDecimal(ToDecimal(n)) == Some(n)
  {
    var s := ToDecimal(n);
    var m: nat := if n < 0 then -n else n;
    NatDigitsValue(m);
    if n < 0 {
      assert s[1..] == NatDigits(m);
    }
  }

  /** Distinct integers print differently. */
  lemma ToDecimalInjective(a: int, b: int)
    requires ToDecimal(a) == ToDecimal(b)
    ensures a == b
  {
    ParseDecimalToDecimal(a);
    ParseDecimalToDecimal(b);
  }
}

=== FILE: edit_image.dfy ===
/** The per-image editor (src/pages/EditImage.tsx).

    The editor seeds its four settings from the saved record, falling back
    with JavaScript's `||` to the defaults; every change of a setting saves
    the whole record under the route id; the preview is the transform URL
    of the current settings. */
module EditImage {
  import opened Wrappers
  import opened Picsum

  datatype Settings = Settings(width: int, height: int, grayscale: bool, blur: int)

  const Defaults := Settings(600, 400, false, 0)

  /** The `:id` route parameter, when the route supplies a non-empty one
      (an absent or empty id is falsy in the source). */
  function RouteId(route: Option<string>): (r: Option<string>)
    ensures r.Some? ==> r.value != "" && route == Some(r.value)
    ensures r.None? ==> route.None? || route.value == ""
  {
    match route
    case Some(id) => if id != "" then Some(id) else None
    case None => None
  }

  /** JavaScript `x || d` for a number that may be `undefined`: both
      `undefined` and `0` fall back to `d`. */
  function OrNumber(x: Option<int>, d: int): int {
    if x.Some? && x.value != 0 then x.value else d
  }

  /** JavaScript `x || d` for a flag that may be `undefined`. */
  function OrFlag(x: Option<bool>, d: bool): bool {
    if x.Some? && x.value then true else d
  }

  /** The settings the editor opens with. A saved width or height of 0
      falls back to the default like a missing one; the saved grayscale
      flag and blur are taken as they are (`|| false` and `|| 0` change
      nothing). */
  function InitialSettings(saved: Option<EditedImage>): (s: Settings)
    ensures saved.None? ==> s == Defaults
    ensures saved.Some? ==> s.width == (if saved.value.width != 0 then saved.value.width else 600)
    ensures saved.Some? ==> s.height == (if saved.value.height != 0 then saved.value.height else 400)
    ensures saved.Some? ==> s.grayscale == saved.value.grayscale && s.blur == saved.value.blur
  {
    match saved
    case None => Settings(OrNumber(None, 600), OrNumber(None, 400), OrFlag(None, false), OrNumber(None, 0))
    case Some(e) =>
      Settings(OrNumber(Some(e.width), 600), OrNumber(Some(e.height), 400),
               OrFlag(Some(e.grayscale), false), OrNumber(Some(e.blur), 0))
  }

  /** The record the editor saves: the settings under the route id. */
  function RecordOf(id: string, s: Settings): EditedImage {
    EditedImage(id, s.width, s.height, s.grayscale, s.blur)
  }

  /** The editor's state: route, settings and the storage it saves into. */
  datatype Editor = Editor(route: Option<string>, settings: Settings, storage: Storage)

  /** The save effect: with a route id, the current settings are written
      under that id; without one nothing is written. */
  function Persist(route: Option<string>, s: Settings, st: Storage): Storage {
    match RouteId(route)
    case Some(id) => SaveEditedImage(st, RecordOf(id, s))
    case None => st
  }

  /** The store holds exactly the editor's current settings. */
  predicate Synced(ed: Editor) {
    match RouteId(ed.route)
    case Some(id) => GetEditedImage(ed.storage, id) == Success(Some(RecordOf(id, ed.settings)))
    case None => true
  }

  /** Opening the editor: load the saved record (a corrupt entry makes
      `JSON.parse` throw), seed the settings, then the mount effect saves
      them, creating the record on a first visit. */
  function Open(st: Storage, route: Option<string>): (r: Result<Editor, StorageError>)
    ensures r.Failure? <==> RouteId(route).Some? && GetEditedImage(st, RouteId(route).value).Failure?
    ensures r.Success? ==> Synced(r.value) && r.value.route == route
    ensures r.Success? && RouteId(route).None? ==> r.value.settings == Defaults && r.value.storage == st
    ensures r.Success? && RouteId(route).Some? && GetEditedImage(st, RouteId(route).value) == Success(None)
            ==> r.value.settings == Defaults
    ensures r.Success? && RouteId(route).Some?
            ==> r.value.settings == InitialSettings(GetEditedImage(st, RouteId(route).value).value)
    ensures r.Success? && RouteId(route).Some?
            ==> r.value.storage.Keys == st.Keys + {EditedKey(RouteId(route).value)}
    ensures r.Success? ==>
              forall k :: (k in st && (RouteId(route).None? || k != EditedKey(RouteId(route).value))
                           ==> r.value.storage[k] == st[k])
  {
    var saved := match RouteId(route)
      case Some(id) => GetEditedImage(st, id)
      case None => Success(None);
    match saved
    case Failure(err) => Failure(err)
    case Success(record) =>
      var s := InitialSettings(record);
      Success(Editor(route, s, Persist(route, s, st)))
  }

  /** The editor's controls. */
  datatype Change =
    | SetWidth(width: int)
    | SetHeight(height: int)
    | SetGrayscale(on: bool)
    | SetBlur(blur: int)
    | Reset

  /** A control changes only its own setting, with the value as given (the
      inputs' `min`/`max` are not enforced); Reset restores the defaults. */
  function Update(s: Settings, c: Change): (s': Settings)
    ensures c.Reset? ==> s' == Defaults
    ensures c.SetWidth? ==> s'.width == c.width && s'.height == s.height && s'.grayscale == s.grayscale && s'.blur == s.blur
    ensures c.SetHeight? ==> s'.height == c.height && s'.width == s.width && s'.grayscale == s.grayscale && s'.blur == s.blur
    ensures c.SetGrayscale? ==> s'.grayscale == c.on && s'.width == s.width && s'.height == s.height && s'.blur == s.blur
    ensures c.SetBlur? ==> s'.blur == c.blur && s'.width == s.width && s'.height == s.height && s'.grayscale == s.grayscale
  {
    match c
    case SetWidth(w) => s.(width := w)
    case SetHeight(h) => s.(height := h)
    case SetGrayscale(on) => s.(grayscale := on)
    case SetBlur(b) => s.(blur := b)
    case Reset => Defaults
  }

  /** A change followed by its save effect: afterwards the store holds the
      new settings, and no other key of the storage has moved. */
  function Apply(ed: Editor, c: Change): (ed': Editor)
    ensures ed'.route == ed.route && ed'.settings == Update(ed.settings, c)
    ensures Synced(ed')
    ensures ed'.storage.Keys
            == ed.storage.Keys + (if RouteId(ed.route).Some? then {EditedKey(RouteId(ed.route).value)} else {})
    ensures forall k :: (k in ed.storage && (RouteId(ed.route).None? || k != EditedKey(RouteId(ed.route).value))
                         ==> k in ed'.storage && ed'.storage[k] == ed.storage[k])
  {
    var s := Update(ed.settings, c);
    Editor(ed.route, s, Persist(ed.route, s, ed.storage))
  }

  /** The preview: the transform URL of the current settings, or the empty
      string without a route id. */
  function PreviewUrl(ed: Editor): (url: string)
    ensures RouteId(ed.route).None? <==> url == ""
    ensures RouteId(ed.route).Some? ==> url == ImageUrl(RouteId(ed.route).value,
      ed.settings.width, ed.settings.height, ed.settings.grayscale, ed.settings.blur)
  {
    match RouteId(ed.route)
    case Some(id) =>
      assert |ImageUrl(id, ed.settings.width, ed.settings.height, ed.settings.grayscale, ed.settings.blur)|
             >= |BaseUrl(id, ed.settings.width, ed.settings.height)| > 0;
      ImageUrl(id, ed.settings.width, ed.settings.height, ed.settings.grayscale, ed.settings.blur)
    case None => ""
  }

  /** The preview always shows what is saved for the image. */
  lemma PreviewMatchesSaved(ed: Editor, id: string)
    requires Synced(ed) && RouteId(ed.route) == Some(id)
    ensures GetEditedImage(ed.storage, id).Success? && GetEditedImage(ed.storage, id).value.Some?
    ensures var e := GetEditedImage(ed.storage, id).value.value;
            PreviewUrl(ed) == ImageUrl(e.id, e.width, e.height, e.grayscale, e.blur)
  {
  }

  /** After Reset the preview is the plain transform URL at 600x400, with no
      query at all. */
  lemma ResetPreview(ed: Editor, id: string)
    requires RouteId(ed.route) == Some(id)
    ensures Apply(ed, Reset).settings == Defaults
    ensures PreviewUrl(Apply(ed, Reset)) == BaseUrl(id, 600, 400)
  {
    ImageUrlCases(id, 600, 400, false, 0);
  }

  /** Reopening the editor on what it saved restores it exactly when
      neither dimension is 0; a 0 width or height comes back as the
      default. */
  lemma ReopenRestoresIff(ed: Editor, id: string)
    requires Synced(ed) && RouteId(ed.route) == Some(id)
    ensures Open(ed.storage, ed.route).Success?
    ensures Open(ed.storage, ed.route) == Success(ed)
            <==> ed.settings.width != 0 && ed.settings.height != 0
  {
    var rec := RecordOf(id, ed.settings);
    assert EditedKey(id) in ed.storage && ed.storage[EditedKey(id)] == Json(rec);
    if ed.settings.width != 0 && ed.settings.height != 0 {
      assert InitialSettings(Some(rec)) == ed.settings;
      assert SaveEditedImage(ed.storage, rec) == ed.storage;
    }
  }

  /** A first visit creates the record with the defaults. */
  lemma FirstVisitSavesDefaults(st: Storage, id: string)
    requires id != "" && EditedKey(id) !in st
    ensures Open(st, Some(id)).Success?
    ensures GetEditedImage(Open(st, Some(id)).value.storage, id)
            == Success(Some(EditedImage(id, 600, 400, false, 0)))
  {
  }

  /** What the detail query holds: nothing without a route id, the fetch
      failure, or the first listed image with the route id (if any). */
  datatype Details = Disabled | DetailsFailed | Found(image: Option<PicsumImage>)

  /** `images.find(img => img.id === id)`: the index of the first image
      with that id, or `|images|`. */
  method FindIndex(images: seq<PicsumImage>, id: string) returns (i: nat)
    ensures i <= |images|
    ensures forall j :: 0 <= j < i ==> images[j].id != id
    ensures i < |images| ==> images[i].id == id
  {
    i := 0;
    while i < |images| && images[i].id != id
      invariant i <= |images|
      invariant forall j :: 0 <= j < i ==> images[j].id != id
    {
      i := i + 1;
    }
  }

  /** The detail query: without a route id it never runs; otherwise it
      fetches the first 100 listed images and picks the first with that id,
      `null` when none has it. */
  method LoadDetails(route: Option<string>, server: string -> Response) returns (d: Details)
    ensures RouteId(route).None? ==> d == Disabled
    ensures RouteId(route).Some? ==> (d == DetailsFailed <==> !server(ListUrl(1, 100)).ok)
    ensures d.Found? <==> RouteId(route).Some? && server(ListUrl(1, 100)).ok
    ensures d.Found? ==>
      var body, id := server(ListUrl(1, 100)).body, RouteId(route).value;
      match d.image
      case None => forall j :: 0 <= j < |body| ==> body[j].id != id
      case Some(image) =>
        image.id == id &&
        exists i :: 0 <= i < |body| && body[i] == image && forall j :: 0 <= j < i ==> body[j].id != id
  {
    match RouteId(route)
    case None => d := Disabled;
    case Some(id) =>
      match FetchImages(1, 100, server)
      case Failure(_) => d := DetailsFailed;
      case Success(images) =>
        var i := FindIndex(images, id);
        if i < |images| {
          d := Found(Some(images[i]));
        } else {
          d := Found(None);
        }
  }
}

=== FILE: gallery_context.dfy ===
/** The shared gallery page (src/context/GalleryContext.tsx).

    The provider seeds `currentPage` from storage once, writes it back as
    decimal text on mount and on every change, and hands out the one setter
    every consumer uses. */
module GalleryContext {
  import opened Wrappers
  import opened Decimal
  import opened Picsum

  const PageKey := "gallery-current-page"

  /** The page key never collides with an edited-image key. */
  lemma PageKeyNotEdited(id: string)
    ensures PageKey != EditedKey(id)
  {
    assert PageKey[0] == 'g' && EditedKey(id)[0] == 'e';
  }

  /** The provider's state: the current page and the storage it persists to. */
  datatype Provider = Provider(currentPage: int, storage: Storage)

  /** The lazy initialiser: no entry, or an empty one, means page 1;
      otherwise the page is `parseInt` of the stored text. `None` is the
      `NaN` that `parseInt` yields on text without leading digits (the JSON
      text of a record starts with `{`, so it is `NaN` too). */
  function InitialPage(st: Storage): (r: Option<int>)
    ensures PageKey !in st ==> r == Some(1)
    ensures PageKey in st && st[PageKey] == Text("") ==> r == Some(1)
    ensures PageKey in st && st[PageKey].Text? && st[PageKey].text != ""
            ==> r == ParseInt(st[PageKey].text)
    ensures PageKey in st && st[PageKey].Json? ==> r.None?
  {
    if PageKey !in st then Some(1)
    else match st[PageKey]
      case Text(s) => if s == "" then Some(1) else ParseInt(s)
      case Json(_) => None
  }

  /** `localStorage.setItem('gallery-current-page', page.toString())`. */
  function StorePage(st: Storage, page: int): Storage {
    st[PageKey := Text(ToDecimal(page))]
  }

  /** The storage holds exactly the decimal text of the current page. */
  predicate Persisted(g: Provider) {
    PageKey in g.storage && g.storage[PageKey] == Text(ToDecimal(g.currentPage))
  }

  /** Mounting the provider: initialise from storage, then the effect writes
      the page back. `None` when the stored text parses to `NaN`. */
  function Mount(st: Storage): (r: Option<Provider>)
    ensures r.Some? <==> InitialPage(st).Some?
    ensures r.Some? ==> r.value.currentPage == InitialPage(st).value && Persisted(r.value)
    ensures r.Some? ==> r.value.storage.Keys == st.Keys + {PageKey}
    ensures r.Some? ==> forall k :: k in st && k != PageKey ==> k in r.value.storage && r.value.storage[k] == st[k]
  {
    match InitialPage(st)
    case Some(p) => Some(Provider(p, StorePage(st, p)))
    case None => None
  }

  /** `setCurrentPage(page)`: takes the value as given, with no clamping,
      and persists it. */
  function SetCurrentPage(g: Provider, page: int): (g': Provider)
    ensures g'.currentPage == page
    ensures Persisted(g')
    ensures g'.storage.Keys == g.storage.Keys + {PageKey}
    ensures forall k :: k in g.storage && k != PageKey ==> k in g'.storage && g'.storage[k] == g.storage[k]
  {
    Provider(page, StorePage(g.storage, page))
  }

  /** The initialiser reads a persisted page back as the current page. */
  lemma PersistedPageReads(g: Provider)
    requires Persisted(g)
    ensures InitialPage(g.storage) == Some(g.currentPage)
  {
    ParseIntToDecimal(g.currentPage);
    assert ToDecimal(g.currentPage) != "";
  }

  /** Restarting from what the provider persisted gives back the same
      provider: the same page and the same storage. */
  lemma RestartRestoresPage(g: Provider)
    requires Persisted(g)
    ensures Mount(g.storage) == Some(g)
  {
    PersistedPageReads(g);
    assert StorePage(g.storage, g.currentPage) == g.storage;
  }

  /** Setting a page and restarting yields that page. */
  lemma SetThenRestart(g: Provider, page: int)
    ensures Mount(SetCurrentPage(g, page).storage) == Some(Provider(page, SetCurrentPage(g, page).storage))
  {
    RestartRestoresPage(SetCurrentPage(g, page));
  }

  /** A first run with nothing stored starts on page 1. */
  lemma FirstRunStartsOnPageOne(st: Storage)
    requires PageKey !in st
    ensures Mount(st).Some? && Mount(st).value.currentPage == 1
  {
  }

  /** Changing the page never disturbs a saved edited image. */
  lemma SetCurrentPageLeavesEdits(g: Provider, page: int, id: string)
    ensures GetEditedImage(SetCurrentPage(g, page).storage, id) == GetEditedImage(g.storage, id)
  {
    PageKeyNotEdited(id);
  }

  /** Saving an edited image never disturbs the stored page. */
  lemma SaveLeavesPage(st: Storage, e: EditedImage)
    ensures InitialPage(SaveEditedImage(st, e)) == InitialPage(st)
  {
    PageKeyNotEdited(e.id);
  }

  /** `useGallery()`: the nearest provider's value, or the error thrown
      when a component is rendered outside any provider. */
  function UseGallery(context: Option<Provider>): (r: Result<Provider, string>)
    ensures r.Failure? <==> context.None?
    ensures r.Failure? ==> r.error == "useGallery must be used within a GalleryProvider"
    ensures r.Success? ==> r.value == context.value
  {
    match context
    case None => Failure("useGallery must be used within a GalleryProvider")
    case Some(g) => Success(g)
  }
}

=== FILE: gallery_page.dfy ===
/** The gallery grid page (src/pages/Index.tsx) and the thumbnail each card
    shows (src/components/ImageCard.tsx). */
module GalleryPage {
  import opened Wrappers
  import opened Decimal
  import opened Picsum
  import GalleryContext
  import Pagination

  const ItemsPerPage := 12

  /** The state of the listing query as the page sees it. */
  datatype Listing = Loading | Errored | Loaded(images: seq<PicsumImage>)

  /** The props handed to the pagination control. */
  datatype PagerProps = PagerProps(currentPage: int, hasMore: bool)

  datatype View =
    | Spinner
    | ErrorMessage
    | Grid(cards: seq<PicsumImage>, pager: Option<PagerProps>)

  /** The listing request for the current page. */
  function ListingRequest(g: GalleryContext.Provider): string {
    ListUrl(g.currentPage, ItemsPerPage)
  }

  /** The page always asks for the current page with `ItemsPerPage` items, so the
      request identifies the page. */
  lemma ListingRequestIdentifiesPage(g1: GalleryContext.Provider, g2: GalleryContext.Provider)
    requires ListingRequest(g1) == ListingRequest(g2)
    ensures g1.currentPage == g2.currentPage
  {
    ListUrlInjective(g1.currentPage, ItemsPerPage, g2.currentPage, ItemsPerPage);
  }

  /** The query's result once the fetch has settled. */
  function Settle(g: GalleryContext.Provider, server: string -> Response): (l: Listing)
    ensures l != Loading
    ensures l.Errored? <==> !server(ListUrl(g.currentPage, ItemsPerPage)).ok
    ensures l.Loaded? ==> l.images == server(ListUrl(g.currentPage, ItemsPerPage)).body
  {
    match FetchImages(g.currentPage, ItemsPerPage, server)
    case Success(images) => Loaded(images)
    case Failure(_) => Errored
  }

  /** `hasMore`: the fetched page was full. */
  predicate HasMore(images: seq<PicsumImage>) {
    |images| == ItemsPerPage
  }

  /** What the page renders. The control appears only under a non-empty
      grid, shows the current page, and offers "next" only after a full
      page. */
  function Render(page: int, listing: Listing): (v: View)
    ensures v.Spinner? <==> listing.Loading?
    ensures v.ErrorMessage? <==> listing.Errored?
    ensures v.Grid? ==> listing.Loaded? && v.cards == listing.images
    ensures v.Grid? ==> (v.pager.Some? <==> |listing.images| > 0)
    ensures v.Grid? && v.pager.Some? ==> v.pager.value.currentPage == page
    ensures v.Grid? && v.pager.Some? ==> (v.pager.value.hasMore <==> |listing.images| == ItemsPerPage)
  {
    match listing
    case Loading => Spinner
    case Errored => ErrorMessage
    case Loaded(images) =>
      Grid(images, if |images| > 0 then Some(PagerProps(page, HasMore(images))) else None)
  }

  /** A click on the control under a loaded listing: an enabled button
      goes straight to the shared `setCurrentPage`; otherwise nothing
      changes. */
  function Navigate(g: GalleryContext.Provider, images: seq<PicsumImage>, b: Pagination.Button)
    : (g': GalleryContext.Provider)
    ensures |images| == 0 ==> g' == g
    ensures |images| > 0 && Pagination.Click(g.currentPage, HasMore(images), b).Some?
            ==> g' == GalleryContext.SetCurrentPage(g, Pagination.Click(g.currentPage, HasMore(images), b).value)
    ensures Pagination.Click(g.currentPage, HasMore(images), b).None? ==> g' == g
  {
    match Render(g.currentPage, Loaded(images)).pager
    case None => g
    case Some(props) =>
      match Pagination.Click(props.currentPage, props.hasMore, b)
      case Some(target) => GalleryContext.SetCurrentPage(g, target)
      case None => g
  }

  /** Navigation from a valid page stays on valid pages, and what it shows
      is what it persisted. */
  lemma NavigateKeepsPageValid(g: GalleryContext.Provider, images: seq<PicsumImage>, b: Pagination.Button)
    requires g.currentPage >= 1
    requires GalleryContext.Persisted(g)
    ensures Navigate(g, images, b).currentPage >= 1
    ensures GalleryContext.Persisted(Navigate(g, images, b))
  {
    if |images| > 0 && Pagination.Click(g.currentPage, HasMore(images), b).Some? {
      Pagination.ClickStaysPositive(g.currentPage, HasMore(images), b);
    }
  }

  /** "Next" is offered exactly after a full page: a short last page stops
      the forward walk. */
  lemma NextOnlyAfterFullPage(g: GalleryContext.Provider, images: seq<PicsumImage>)
    requires |images| > 0
    ensures Navigate(g, images, Pagination.Next).currentPage == g.currentPage + 1 <==> |images| == ItemsPerPage
  {
  }

  /** The thumbnail a card shows: `https://picsum.photos/id/{id}/400/300`. */
  function ThumbnailUrl(id: string): string {
    "https://picsum.photos/id/" + id + "/400/300"
  }

  /** The card's inline thumbnail is the transform URL with
      `getImageUrl`'s defaults (400, 300, no grayscale, no blur). */
  lemma ThumbnailIsDefaultImageUrl(id: string)
    ensures ImageUrl(id, 400, 300, false, 0) == ThumbnailUrl(id)
  {
    assert ToDecimal(400) == "400" by {
      assert NatDigits(400) == NatDigits(40) + ['0'];
      assert NatDigits(40) == NatDigits(4) + ['0'];
    }
    assert ToDecimal(300) == "300" by {
      assert NatDigits(300) == NatDigits(30) + ['0'];
      assert NatDigits(30) == NatDigits(3) + ['0'];
    }
    ImageUrlCases(id, 400, 300, false, 0);
  }
}

=== FILE: pagination.dfy ===
/** The previous/next page control (src/components/Pagination.tsx). */
module Pagination {
  import opened Wrappers

  datatype Button = Previous | Next

  /** Where "previous" goes: `Math.max(1, currentPage - 1)`. */
  function PreviousTarget(page: int): (t: int)
    ensures t >= 1
    ensures t >= page - 1 && (t == 1 || t == page - 1)
  {
    if page - 1 > 1 then page - 1 else 1
  }

  /** Where "next" goes: `currentPage + 1`. */
  function NextTarget(page: int): (t: int)
    ensures t > page
  {
    page + 1
  }

  /** Whether a button is disabled: "previous" only on page 1 exactly,
      "next" whenever the current page was not full. */
  predicate Disabled(page: int, hasMore: bool, b: Button) {
    match b
    case Previous => page == 1
    case Next => !hasMore
  }

  /** A click: the page handed to `onPageChange`, or `None` when the button
      is disabled. */
  function Click(page: int, hasMore: bool, b: Button): (r: Option<int>)
    ensures r.None? <==> (b == Previous && page == 1) || (b == Next && !hasMore)
    ensures r.Some? && b == Previous ==> r.value == (if page > 2 then page - 1 else 1)
    ensures r.Some? && b == Next ==> r.value == page + 1
  {
    if Disabled(page, hasMore, b) then None
    else match b
      case Previous => Some(PreviousTarget(page))
      case Next => Some(NextTarget(page))
  }

  /** From a page of at least 1, every enabled button leads to a page of at
      least 1. */
  lemma ClickStaysPositive(page: int, hasMore: bool, b: Button)
    requires page >= 1
    requires Click(page, hasMore, b).Some?
    ensures Click(page, hasMore, b).value >= 1
  {
  }

  /** Below page 1 "previous" is still enabled and leads to page 1. */
  lemma PreviousBelowOne(page: int, hasMore: bool)
    requires page < 1
    ensures Click(page, hasMore, Previous) == Some(1)
  {
  }

  /** Above page 1, "previous" then "next" comes back. */
  lemma PreviousThenNext(page: int, hasMore: bool)
    requires page > 1
    ensures Click(page, hasMore, Previous) == Some(page - 1)
    ensures Click(page - 1, true, Next) == Some(page)
  {
  }

  /** From page 1 on, "next" then "previous" comes back. */
  lemma NextThenPrevious(page: int, hasMore: bool)
    requires page >= 1
    ensures Click(page, true, Next) == Some(page + 1)
    ensures Click(page + 1, hasMore, Previous) == Some(page)
  {
  }

  /** A run of clicks, each with the `hasMore` the page showed at the time;
      a disabled button leaves the page where it is. */
  function Run(page: int, clicks: seq<(bool, Button)>): int
    decreases |clicks|
  {
    if |clicks| == 0 then page
    else
      var next := match Click(page, clicks[0].0, clicks[0].1)
        case Some(p) => p
        case None => page;
      Run(next, clicks[1..])
  }

  /** Starting from page 1 or later, no run of clicks leaves the valid pages. */
  lemma {:induction false} RunStaysPositive(page: int, clicks: seq<(bool, Button)>)
    requires page >= 1
    ensures Run(page, clicks) >= 1
    decreases |clicks|
  {
    if |clicks| > 0 {
      var next := match Click(page, clicks[0].0, clicks[0].1)
        case Some(p) => p
        case None => page;
      RunStaysPositive(next, clicks[1..]);
    }
  }
}

=== FILE: picsum.dfy ===
/** The Picsum service client and the edited-image store (src/services/picsum.ts).

    Browser storage (`localStorage`) is one string-keyed map shared by the
    whole application; it is modelled as `Storage`. A value is either plain
    text or the JSON text of an `EditedImage`; `Json(e)` stands for
    `JSON.stringify(e)`, and parsing it gives back exactly `e`. */
module Picsum {
  import opened Wrappers
  import opened Decimal
  import Text

  /** One entry of the catalog listing, as the service reports it. */
  datatype PicsumImage = PicsumImage(
    id: string, author: string, width: int, height: int, url: string, download_url: string)

  /** The per-image editor settings that are persisted locally. */
  datatype EditedImage = EditedImage(
    id: string, width: int, height: int, grayscale: bool, blur: int)

  datatype Stored = Text(text: string) | Json(record: EditedImage)

  type Storage = map<string, Stored>

  /** What `fetch` hands back: its `ok` flag and the decoded JSON body. */
  datatype Response = Response(ok: bool, body: seq<PicsumImage>)

  datatype FetchError = FetchError(message: string)

  /** A stored value that `JSON.parse` does not turn into an `EditedImage`. */
  datatype StorageError = CorruptEntry(key: string)

  const Origin := "https://picsum.photos"
  const ListPrefix := Origin + "/v2/list?page="
  const LimitMark := "&limit="

  // ---------------------------------------------------------------- listing

  /** The catalog request `fetchImages(page, limit)` sends. */
  function ListUrl(page: int, limit: int): (url: string)
    ensures |url| > |ListPrefix| && url[..|ListPrefix|] == ListPrefix
  {
    ListPrefix + ToDecimal(page) + LimitMark + ToDecimal(limit)
  }

  /** Where each field of the listing URL sits: the prefix, the page in
      decimal, `&limit=`, then the limit in decimal up to the end. */
  lemma ListUrlFields(page: int, limit: int)
    ensures var url, d, m := ListUrl(page, limit), ToDecimal(page), ToDecimal(limit);
      && |url| == |ListPrefix| + |d| + |LimitMark| + |m|
      && url[|ListPrefix|..|ListPrefix| + |d|] == d
      && url[|ListPrefix| + |d|..|url| - |m|] == LimitMark
      && url[|url| - |m|..] == m
  {
    var d, m := ToDecimal(page), ToDecimal(limit);
    var url := ListUrl(page, limit);
    assert url == ListPrefix + (d + (LimitMark + m));
  }

  /** The listing URL as prefix, page, `&` and the limit parameter. */
  lemma ListUrlSplit(page: int, limit: int)
    ensures ListUrl(page, limit)
            == ListPrefix + (ToDecimal(page) + ['&'] + ("limit=" + ToDecimal(limit)))
  {
    assert LimitMark == ['&'] + "limit=";
  }

  /** The listing request names its page and its limit unambiguously: two
      requests are the same string only for the same `(page, limit)`. */
  lemma ListUrlInjective(p1: int, l1: int, p2: int, l2: int)
    requires ListUrl(p1, l1) == ListUrl(p2, l2)
    ensures p1 == p2 && l1 == l2
  {
    var d1, d2 := ToDecimal(p1), ToDecimal(p2);
    var t1, t2 := "limit=" + ToDecimal(l1), "limit=" + ToDecimal(l2);
    ListUrlSplit(p1, l1);
    ListUrlSplit(p2, l2);
    Text.PrefixCancel(ListPrefix, d1 + ['&'] + t1, d2 + ['&'] + t2);
    Text.SplitUnique(d1, t1, d2, t2, '&');
    ToDecimalInjective(p1, p2);
    Text.PrefixCancel("limit=", ToDecimal(l1), ToDecimal(l2));
    ToDecimalInjective(l1, l2);
  }

  /** `fetchImages(page, limit)`: one request to `server` at `ListUrl(page,
      limit)`; a response that is not ok becomes the generic error, an ok
      one is returned as decoded. */
  function FetchImages(page: int, limit: int, server: string -> Response)
    : (r: Result<seq<PicsumImage>, FetchError>)
    ensures r.Failure? <==> !server(ListUrl(page, limit)).ok
    ensures r.Failure? ==> r.error == FetchError("Failed to fetch images")
    ensures r.Success? ==> r.value == server(ListUrl(page, limit)).body
  {
    var response := server(ListUrl(page, limit));
    if !response.ok then Failure(FetchError("Failed to fetch images"))
    else Success(response.body)
  }

  // ------------------------------------------------------- transform URLs

  /** `https://picsum.photos/id/{id}/{width}/{height}`. */
  function BaseUrl(id: string, width: int, height: int): string {
    Origin + "/id/" + id + "/" + ToDecimal(width) + "/" + ToDecimal(height)
  }

  /** The query parameters `getImageUrl` collects, in push order. */
  function Params(grayscale: bool, blur: int): (params: seq<string>)
    ensures |params| == (if grayscale then 1 else 0) + (if blur > 0 then 1 else 0)
    ensures grayscale ==> params[0] == "grayscale"
    ensures blur > 0 ==> params[|params| - 1] == "blur=" + ToDecimal(blur)
  {
    (if grayscale then ["grayscale"] else [])
    + (if blur > 0 then ["blur=" + ToDecimal(blur)] else [])
  }

  /** `'?' + params.join('&')` when there are parameters, else nothing. */
  function Query(grayscale: bool, blur: int): (q: string)
    ensures q == "" <==> !grayscale && blur <= 0
    ensures q != "" ==> q[0] == '?'
  {
    var params := Params(grayscale, blur);
    if |params| > 0 then "?" + Text.Join(params, "&") else ""
  }

  /** `getImageUrl(id, width, height, grayscale, blur)`. */
  function ImageUrl(id: string, width: int, height: int, grayscale: bool, blur: int): (url: string)
    ensures |url| >= |BaseUrl(id, width, height)|
    ensures url[..|BaseUrl(id, width, height)|] == BaseUrl(id, width, height)
  {
    BaseUrl(id, width, height) + Query(grayscale, blur)
  }

  /** The query `getImageUrl` appends, case by case, as the transform
      endpoint documents it: `grayscale` before `blur`, and a blur only when
      positive. */
  function ExpectedQuery(grayscale: bool, blur: int): string {
    if grayscale && blur > 0 then "?grayscale&blur=" + ToDecimal(blur)
    else if grayscale then "?grayscale"
    else if blur > 0 then "?blur=" + ToDecimal(blur)
    else ""
  }

  /** The four shapes of a transform URL. */
  lemma ImageUrlCases(id: string, width: int, height: int, grayscale: bool, blur: int)
    ensures ImageUrl(id, width, height, grayscale, blur)
            == BaseUrl(id, width, height) + ExpectedQuery(grayscale, blur)
  {
    QueryCases(grayscale, blur);
  }

  lemma QueryCases(grayscale: bool, blur: int)
    ensures Query(grayscale, blur) == ExpectedQuery(grayscale, blur)
  {
    var params := Params(grayscale, blur);
    if grayscale && blur > 0 {
      var b := "blur=" + ToDecimal(blur);
      assert params == ["grayscale", b];
      assert params[1..] == [b];
      assert Text.Join(params, "&") == "grayscale" + "&" + b;
    } else if grayscale {
      assert params == ["grayscale"];
    } else if blur > 0 {
      assert params == ["blur=" + ToDecimal(blur)];
    } else {
      assert params == [];
    }
  }

  /** Without `?` in the id, the URL has a query mark exactly when grayscale
      is on or the blur is positive. */
  lemma QueryMarkIff(id: string, width: int, height: int, grayscale: bool, blur: int)
    requires '?' !in id
    ensures '?' in ImageUrl(id, width, height, grayscale, blur) <==> grayscale || blur > 0
  {
    ImageUrlCases(id, width, height, grayscale, blur);
    var base := BaseUrl(id, width, height);
    var q := ExpectedQuery(grayscale, blur);
    var dw, dh := ToDecimal(width), ToDecimal(height);
    assert base == Origin + "/id/" + id + "/" + dw + "/" + dh;
    assert '?' !in Origin + "/id/";
    assert '?' !in dw && '?' !in dh;
    assert '?' !in base;
    if grayscale || blur > 0 {
      assert (base + q)[|base|] == '?';
    } else {
      assert base + q == base;
    }
  }

  /** A zero or negative blur leaves no trace in the URL. */
  lemma NonPositiveBlurIgnored(id: string, width: int, height: int, grayscale: bool, blur: int)
    requires blur <= 0
    ensures ImageUrl(id, width, height, grayscale, blur) == ImageUrl(id, width, height, grayscale, 0)
  {
    assert Params(grayscale, blur) == Params(grayscale, 0);
  }

  /** Reads back what a query states: the grayscale flag and the blur level
      (0 when absent). `None` for a query `getImageUrl` never builds. */
  function DecodeQuery(q: string): Option<(bool, int)> {
    if q == "" then Some((false, 0))
    else if q == "?grayscale" then Some((true, 0))
    else if |q| >= 16 && q[..16] == "?grayscale&blur=" then
      match ParseDecimal(q[16..])
      case Some(n) => if n > 0 then Some((true, n)) else None
      case None => None
    else if |q| >= 6 && q[..6] == "?blur=" then
      match ParseDecimal(q[6..])
      case Some(n) => if n > 0 then Some((false, n)) else None
      case None => None
    else None
  }

  /** The query of a transform URL determines the settings it encodes: the
      grayscale flag and the blur, a non-positive blur reading as 0. */
  lemma DecodeExpectedQuery(grayscale: bool, blur: int)
    ensures DecodeQuery(ExpectedQuery(grayscale, blur))
            == Some((grayscale, if blur > 0 then blur else 0))
  {
    var q := ExpectedQuery(grayscale, blur);
    ParseDecimalToDecimal(blur);
    if grayscale && blur > 0 {
      assert q[..16] == "?grayscale&blur=" && q[16..] == ToDecimal(blur);
    } else if !grayscale && blur > 0 {
      assert q[..6] == "?blur=" && q[6..] == ToDecimal(blur);
      assert q != "?grayscale" && (|q| < 16 || q[..16] != "?grayscale&blur=") by {
        assert q[1] == 'b';
      }
    }
  }

  // ------------------------------------------------------ edited-image store

  const EditedPrefix := "edited-image-"

  /** The storage key of an image's settings: `edited-image-{id}`. */
  function EditedKey(id: string): string {
    EditedPrefix + id
  }

  lemma EditedKeyInjective(a: string, b: string)
    requires EditedKey(a) == EditedKey(b)
    ensures a == b
  {
    Text.PrefixCancel(EditedPrefix, a, b);
  }

  /** `saveEditedImage(e)`: overwrites the entry under `e`'s key, last write
      wins, and leaves every other key as it was. */
  function SaveEditedImage(st: Storage, e: EditedImage): (st': Storage)
    ensures EditedKey(e.id) in st' && st'[EditedKey(e.id)] == Json(e)
    ensures st'.Keys == st.Keys + {EditedKey(e.id)}
    ensures forall k :: k in st && k != EditedKey(e.id) ==> st'[k] == st[k]
  {
    st[EditedKey(e.id) := Json(e)]
  }

  /** `getEditedImage(id)`: no entry, or an empty one, is `null` (`None`);
      the JSON text of a record parses back to that record; any other text
      makes `JSON.parse` fail. */
  function GetEditedImage(st: Storage, id: string): (r: Result<Option<EditedImage>, StorageError>)
    ensures r == Success(None) <==> EditedKey(id) !in st || st[EditedKey(id)] == Text("")
    ensures r.Success? && r.value.Some? <==> EditedKey(id) in st && st[EditedKey(id)].Json?
    ensures r.Success? && r.value.Some? ==> st[EditedKey(id)] == Json(r.value.value)
  {
    var key := EditedKey(id);
    if key !in st then Success(None)
    else match st[key]
      case Json(e) => Success(Some(e))
      case Text(s) => if s == "" then Success(None) else Failure(CorruptEntry(key))
  }

  /** Reading back what was just saved gives the saved record. */
  lemma SaveThenGet(st: Storage, e: EditedImage)
    ensures GetEditedImage(SaveEditedImage(st, e), e.id) == Success(Some(e))
  {
  }

  /** Two saves for the same id: the second one alone decides the store. */
  lemma LastWriteWins(st: Storage, e1: EditedImage, e2: EditedImage)
    requires e1.id == e2.id
    ensures SaveEditedImage(SaveEditedImage(st, e1), e2) == SaveEditedImage(st, e2)
  {
  }

  /** Saving one image's settings leaves every other image's entry alone. */
  lemma SaveLeavesOthers(st: Storage, e: EditedImage, id: string)
    requires id != e.id
    ensures GetEditedImage(SaveEditedImage(st, e), id) == GetEditedImage(st, id)
  {
    if EditedKey(id) == EditedKey(e.id) {
      EditedKeyInjective(id, e.id);
    }
  }

  /** A run of saves, oldest first. */
  function SaveAll(st: Storage, es: seq<EditedImage>): Storage
    decreases |es|
  {
    if |es| == 0 then st else SaveAll(SaveEditedImage(st, es[0]), es[1..])
  }

  /** The last record in `es` saved for `id`, if any. */
  function LastSaved(es: seq<EditedImage>, id: string): (r: Option<EditedImage>)
    ensures r.Some? ==> r.value in es && r.value.id == id
    ensures r.Some? ==> exists i :: 0 <= i < |es| && es[i] == r.value && forall j :: i < j < |es| ==> es[j].id != id
    ensures r.None? <==> forall i :: 0 <= i < |es| ==> es[i].id != id
    decreases |es|
  {
    if |es| == 0 then None
    else if es[|es| - 1].id == id then Some(es[|es| - 1])
    else LastSaved(es[..|es| - 1], id)
  }

  lemma {:induction false} LastSavedCons(e: EditedImage, es: seq<EditedImage>, id: string)
    ensures LastSaved([e] + es, id)
            == (if LastSaved(es, id).Some? then LastSaved(es, id)
                else if e.id == id then Some(e) else None)
    decreases |es|
  {
    var s := [e] + es;
    if |es| > 0 {
      assert s[..|s| - 1] == [e] + es[..|es| - 1];
      if es[|es| - 1].id != id {
        LastSavedCons(e, es[..|es| - 1], id);
      }
    }
  }

  /** After any run of saves, reading `id` gives the last record saved for
      it, or what the store held before when none was. */
  lemma {:induction false} SaveAllThenGet(st: Storage, es: seq<EditedImage>, id: string)
    ensures GetEditedImage(SaveAll(st, es), id)
            == (match LastSaved(es, id)
                case Some(e) => Success(Some(e))
                case None => GetEditedImage(st, id))
    decreases |es|
  {
    if |es| > 0 {
      var st1 := SaveEditedImage(st, es[0]);
      SaveAllThenGet(st1, es[1..], id);
      assert es == [es[0]] + es[1..];
      LastSavedCons(es[0], es[1..], id);
      if es[0].id != id {
        SaveLeavesOthers(st, es[0], id);
      }
    }
  }

  /** From empty storage, an id that was never saved reads as `null`. */
  lemma NeverSavedIsNull(es: seq<EditedImage>, id: string)
    requires forall i :: 0 <= i < |es| ==> es[i].id != id
    ensures GetEditedImage(SaveAll(map[], es), id) == Success(None)
  {
    SaveAllThenGet(map[], es, id);
  }
}

=== FILE: text.dfy ===
/** String helpers shared by the URL builders: JavaScript's `Array.join` and
    the fact that a separator absent from the first field splits a
    concatenation uniquely. */
module Text {

  /** `parts.join(sep)` in JavaScript. */
  function Join(parts: seq<string>, sep: string): string
    decreases |parts|
  {
    if |parts| == 0 then ""
    else if |parts| == 1 then parts[0]
    else parts[0] + sep + Join(parts[1..], sep)
  }

  /** Index of the first occurrence of `c` in `s`, or `|s|` when there is none. */
  function FirstIndex(s: string, c: char): (i: nat)
    ensures i <= |s|
    ensures forall j :: 0 <= j < i ==> s[j] != c
    ensures i < |s| ==> s[i] == c
  {
    if |s| == 0 then 0
    else if s[0] == c then 0
    else 1 + FirstIndex(s[1..], c)
  }

  /** In `a + [c] + b`, the first `c` sits right after `a` when `a` has none. */
  lemma FirstIndexAfter(a: string, c: char, b: string)
    requires c !in a
    ensures FirstIndex(a + [c] + b, c) == |a|
  {
    var u := a + [c] + b;
    assert u[|a|] == c;
  }

  /** A separator that occurs in neither first field splits two equal
      concatenations at the same place. */
  lemma SplitUnique(a1: string, b1: string, a2: string, b2: string, c: char)
    requires c !in a1 && c !in a2
    requires a1 + [c] + b1 == a2 + [c] + b2
    ensures a1 == a2 && b1 == b2
  {
    var u := a1 + [c] + b1;
    FirstIndexAfter(a1, c, b1);
    FirstIndexAfter(a2, c, b2);
    assert |a1| == |a2|;
    assert a1 == u[..|a1|];
    assert a2 == u[..|a2|];
    assert b1 == u[|a1| + 1..];
    assert b2 == u[|a2| + 1..];
  }

  /** A fixed prefix can be cancelled: `p + a == p + b` only when `a == b`. */
  lemma PrefixCancel(p: string, a: string, b: string)
    requires p + a == p + b
    ensures a == b
  {
    assert a == (p + a)[|p|..];
    assert b == (p + b)[|p|..];
  }
}

=== FILE: wrappers.dfy ===
/** Option and Result datatypes used across the model: `Option` for the
    values the source represents as `null`/`undefined` or `NaN`, and `Result`
    for the places where the source throws. */
module Wrappers {

  datatype Option<+T> = None | Some(value: T)

  datatype Result<+T, +E> = Success(value: T) | Failure(error: E)
}
